=== FILE: README.md ===
# Keyword searcher — a Dafny model

The system searches a list of text files for a list of keywords and
reports every hit as a triple `(keyword, file name, line number)`. Four
searchers share one matcher and differ only in how they spread the work:

- the single-thread searcher runs one worker over all files;
- the multi-thread searcher cuts the file list into `n_workers` static
  slices of `ceil(F / n_workers)` files and runs one thread per slice,
  appending hits under a lock;
- the multi-process searcher uses the same slices, one process per slice,
  and the parent drains a result queue while the children run and once
  more after they have all exited;
- the queue-based multi-process searcher puts every file on a shared file
  queue; each process pops files (non-blocking) until the queue reports
  `Empty`.

`search()` runs the strategy's `start_workers` and then sorts the whole
result list once, so, with `n_workers >= 1`, every strategy ends with the
same sorted list.

The model, module by module:

- `Seqs`: flattening a list of lists, and how multisets behave when one
  inner list changes.
- `Text`: ASCII lower-casing, Python's substring test `w in line`, and
  code-point string order.
- `Matches`: the match triple, Python's tuple order on it, and an
  insertion sort whose result is the unique sorted permutation.
- `Matcher`: `search_words`, a per-line loop as the code writes it
  (`ScanFile`), and `worker`. The file system is a map from file name to
  its lines; a name that is not a key cannot be opened.
- `Partition`: the static slicing `files[i*k:(i+1)*k]` with
  `k = (F + n - 1) // n`.
- `FileQueue`: the shared file queue, its pops and the queue worker loop.
- `Collect`: how the per-worker outputs reach the result list.
- `Searcher`: the four strategies, `start_workers`, `search()` and the
  end-to-end theorems.
- `Scenarios`: a worked two-line example.

Concurrency is not modelled as threads. A `Schedule` stands for it: a
sequence `pops` says which worker makes each pop of the file queue, and a
sequence `picks` says whose next match reaches the result list next. Every
theorem quantifies over all schedules. The arrival orders the `picks`
produce are exactly the merges that keep each worker's own order.

Points where the code's behaviour is easy to misread:

- `search()` never clears the result list, so a second call accumulates.
- Keywords are not lower-cased; only the line is. A keyword holding an
  ASCII capital never matches, so a keyword `Go` does not match a line containing `going`.
- `n_workers == 0` raises `ZeroDivisionError` in the two slicing
  strategies. A negative `n_workers` starts no worker and collects nothing
  there.
- The queue strategy with `n_workers <= 0` collects nothing.
- The single-thread strategy ignores `n_workers`.

## Model

| member | source | states |
|---|---|---|
| Text.Lower | searcher.py:46 | lower-casing keeps the length and maps each character on its own: an upper-case ASCII letter goes to its lower-case letter, anything else is kept |
| Text.LowerIsLower | searcher.py:46 | a lowered line holds no ASCII capital (A-Z), and lowering is idempotent |
| Text.ContainsIff | searcher.py:48 | `w in line` holds exactly when `w` occurs at some position of the line (the empty keyword occurs in every line) |
| Text.AbsentFirstChar | searcher.py:48 | a keyword whose first character is absent from the line is not in it |
| Text.UpperPatternNeverInLowered | searcher.py:46-48 | a keyword holding an ASCII capital (A-Z) is never a substring of a lowered line |
| Text.StrLeReflexive | searcher.py:83 | string order is reflexive |
| Text.StrLeTotal | searcher.py:83 | any two strings are comparable |
| Text.StrLeAntisymmetric | searcher.py:83 | strings ordered both ways are equal |
| Text.StrLeTransitive | searcher.py:83 | string order is transitive |
| Matches.LeReflexive | searcher.py:83 | tuple order (keyword, then file, then line) is reflexive |
| Matches.LeTotal | searcher.py:83 | tuple order is total |
| Matches.LeAntisymmetric | searcher.py:83 | tuples ordered both ways are equal |
| Matches.LeTransitive | searcher.py:83 | tuple order is transitive |
| Matches.Insert | searcher.py:83 | inserting into a sorted list keeps it sorted and adds exactly that one match |
| Matches.SortMatches | searcher.py:83 | `sort()` yields a sorted permutation of its input |
| Matches.SortedHeadIsLeast | searcher.py:83 | the head of a sorted list is below every element |
| Matches.SortedUnique | searcher.py:83 | two sorted lists with the same elements (with multiplicity) are identical |
| Matches.SortPermutationInvariant | searcher.py:83 | sorting forgets the arrival order: permutations sort to the same list |
| Matches.SortSortedIsIdentity | searcher.py:83 | sorting an already sorted list changes nothing |
| Matcher.LineMatches | searcher.py:47-49 | each hit on a line names that file and line, a listed keyword, and a keyword contained in the line |
| Matcher.LineMatchesCount | searcher.py:47-49 | a line yields a triple once per keyword-list entry equal to its keyword when the line contains it, and otherwise never |
| Matcher.LineMatchesAppend | searcher.py:47-49 | hits within a line come out in keyword-list order |
| Matcher.LinesMatches | searcher.py:45-49 | every hit names a real line whose lowered text contains the keyword; hits come out in line order; no keywords means no hits |
| Matcher.LinesMatchesCount | searcher.py:45-49 | exact multiplicity of every triple over all lines of a file |
| Matcher.SearchWords | searcher.py:43-51 | an unopenable file gives no hits; every hit is in the file, on a real line, for a listed keyword contained in the lowered line; line order |
| Matcher.ScanLine | searcher.py:47-49 | the keyword loop over one lowered line pushes exactly the line's hits in keyword-list order |
| Matcher.ScanFile | searcher.py:43-51 | the nested line and keyword loops push exactly the hits of the per-file definition, in the same order |
| Matcher.SearchWordsCount | searcher.py:43-51 | exact multiplicity of every triple `search_words` pushes, including duplicate keywords |
| Matcher.SearchWordsIff | searcher.py:43-51 | a triple is pushed if and only if the file exists, the line exists, the keyword is listed and it is a substring of the lowered line |
| Matcher.UppercaseKeywordNeverMatches | searcher.py:46-48 | a keyword holding an ASCII capital (A-Z) is never pushed |
| Matcher.Worker | searcher.py:67-69 | every hit of the worker names one of its files, an existing file and a listed keyword; no keywords means no hits |
| Matcher.WorkerAppend | searcher.py:68-69 | the worker handles files in list order: running two lists back to back equals running their concatenation |
| Matcher.WorkerSkipsMissing | searcher.py:50-51 | a file that cannot be opened leaves the worker's output exactly as if it were not listed |
| Matcher.WorkerIff | searcher.py:68-69 | a triple comes out of the worker if and only if its file is listed and `search_words` on that file pushes it |
| Matcher.WorkerPermutation | searcher.py:68-69 | reordering the file list only reorders the hits |
| Matcher.WorkerFlatten | searcher.py:174-186 | workers run over consecutive groups produce, group after group, what one worker over all the files produces |
| Matcher.MapWorker | searcher.py:174-185 | one worker run per group: there is one output per slice or queue share, and output `i` is `worker` over group `i` |
| Partition.FilesPerWorker | searcher.py:173 | `k` is the ceiling of `F / n`: `n` slices of `k` cover all files and `k - 1` would not |
| Partition.PySlice | searcher.py:178-180 | Python slicing with bounds clipped to the list and empty for an inverted range |
| Partition.WorkerSlice | searcher.py:178-180 | worker `i` gets at most `k` contiguous files starting at `i*k`, none when `i*k` is past the end |
| Partition.Slices | searcher.py:173-180 | the slices handed out are exactly `n`, and slice `i` is worker `i`'s `files[i*k:(i+1)*k]` |
| Partition.SlicesPrefix | searcher.py:173-180 | the first `j` slices, concatenated, are the files before position `min(j*k, F)` |
| Partition.SlicesConcat | searcher.py:173-180 | the `n` slices concatenate back to exactly the file list: no file lost, none repeated, order kept |
| Partition.SliceOfIndex | searcher.py:173-180 | each file position belongs to the slice of worker `idx / k`, which exists, and to no other |
| Collect.Interleave | searcher.py:239-243 | whatever the arrival order, the collected list holds exactly the workers' matches with their multiplicities |
| Collect.InterleaveSingle | searcher.py:239-243 | with one producer, the collected list is that producer's output in its own order |
| Collect.InterleaveReachesEveryMerge | searcher.py:239-243 | the schedules are complete: every merge of the workers' outputs that keeps each worker's own order is delivered by some schedule |
| Collect.InterleaveKeepsWorkerOrder | searcher.py:239-243 | the schedules are sound: under any picks, the collected list is a merge that keeps each worker's own order, as the lock and the result queue guarantee |
| FileQueue.Enqueue | searcher.py:293-296 | all files are queued in list order and no worker holds any |
| FileQueue.Pop | searcher.py:281-283 | a pop moves the head of the queue to the popping worker and changes nothing else; on an empty queue nothing changes |
| FileQueue.PopConserves | searcher.py:281 | a pop neither creates nor loses a file |
| FileQueue.RunPops | searcher.py:279-283 | after at least as many pops as queued files the queue is empty |
| FileQueue.RunPopsConserves | searcher.py:279-283 | under any schedule every file is still queued or held by exactly one worker |
| FileQueue.RunPopsPending | searcher.py:279-283 | the queue keeps its order: after `j` pops the files behind position `j` remain |
| FileQueue.RunPopsAssigns | searcher.py:279-283 | each worker receives exactly the files at the positions it popped, in queue order |
| FileQueue.OwnersReachEveryAssignment | searcher.py:297-302 | every assignment of queue positions to workers is realised by some pop schedule |
| FileQueue.DrainQueue | searcher.py:292-302 | with at least one worker the queue is drained and every file is taken by exactly one worker |
| FileQueue.DrainQueueAssigns | searcher.py:292-302 | in the drained state each worker holds exactly the files at the positions it popped |
| FileQueue.RunQueueWorkers | searcher.py:279-285 | the pop-and-search loop leaves each worker with exactly the matches of the files it took in the drained queue state, and together the same bag of matches as one worker over the whole list |
| Searcher.NewSearcher | searcher.py:24-27 | a new searcher keeps its strategy, files and keywords, and its result list starts empty |
| Searcher.StaticOutputs | searcher.py:173-186 | the slice workers' outputs, laid end to end, are exactly the single worker's output |
| Searcher.QueueOutputs | searcher.py:292-302 | the queue workers' outputs hold exactly the single worker's matches |
| Searcher.StartWorkers | searcher.py:131-307 | raises exactly for a slicing strategy with `n_workers == 0`; the single-thread searcher collects exactly the worker's matches in file order, whatever `n_workers` is; the others collect the same matches in some order when `n_workers >= 1`, and nothing when `n_workers <= 0` |
| Searcher.Search | searcher.py:73-84 | raises exactly when `start_workers` does; otherwise keeps the inputs and leaves the result list sorted, holding the old results plus the new matches |
| Searcher.FreshSearchSortsSequentialRun | searcher.py:80-83 | when `n_workers >= 1`, or for the single-thread searcher, a fresh searcher ends with the single worker's matches in sorted order, whatever the schedule |
| Searcher.StrategiesAgree | test.py:110-156 | with `n_workers >= 1`, any two strategies under any two schedules produce identical result lists |
| Searcher.NonPositiveWorkerCount | searcher.py:173-174 | with `n_workers <= 0` the non-single strategies raise exactly when slicing by zero and otherwise return nothing |
| Searcher.SecondSearchAccumulates | searcher.py:26 | the result list is created once: a second `search()` holds every match twice |
| Searcher.MissingFileChangesNothing | searcher.py:50-51 | listing a file that cannot be opened leaves the final results unchanged |
| Searcher.SearchResultsIff | searcher.py:43-83 | when `n_workers >= 1`, or for the single-thread searcher, a triple is in the results of a fresh search exactly when its file is listed and exists, its line exists, its keyword is listed and is a substring of the lowered line |
| Searcher.EmptyKeywordsNoResults | searcher.py:47-49 | an empty keyword list gives an empty result list for every strategy |
| Searcher.UppercaseKeywordAbsent | searcher.py:46-48 | no result carries a keyword holding an ASCII capital (A-Z) |
| Scenarios.FirstLineTests | searcher.py:46-48 | `The Go team builds tools.`, lowered, contains `go` and not `fast` |
| Scenarios.SecondLineTests | searcher.py:46-48 | `Rust is fast.`, lowered, contains `fast` and not `go` |
| Scenarios.ScenarioWorker | searcher.py:44-49 | the worker reports `go` on line 0 before `fast` on line 1 |
| Scenarios.TwoLineScenario | searcher.py:73-84 | when `n_workers >= 1`, or for the single-thread searcher, every strategy ends with `fast` on line 1 before `go` on line 0: sorted by keyword, not by discovery |
| Scenarios.SortSwapsPair | searcher.py:83 | two distinct matches arriving in descending order are swapped by the sort |
| Scenarios.CaseOfLineNotOfKeyword | searcher.py:46-48 | `Going` matches `go`, but `Go` does not match `going` |

## Left out

- Threads, the lock, processes, `start`/`join` and the liveness polling loops are replaced by the `pops` and `picks` schedules; deadlock and liveness are not modelled.
- The queue worker assumes a non-blocking `get` on a non-empty queue always succeeds. A real `multiprocessing.Queue` may report `Empty` early, and a worker would then stop early. The final drain in the parent is modelled as complete for the same reason.
- Collect.Interleave: only the order in which each worker's own matches arrive is fixed; any interleaving across workers is allowed, which is what the lock and the result queue guarantee.
- The catch-all `except Exception` in the workers is not modelled. The model raises nothing inside a worker, since reading is total over the file map.
- File reading is abstracted as a map from names to lines. Encodings, read errors other than a missing file, and the trailing newline kept on each line are not modelled. The newline only matters for a keyword containing a line break, and keywords come from whitespace splitting.
- Text.Lower: lowers ASCII letters only, not the full Unicode mapping of `str.lower`.
- Timing (`time`), `print_results` and the logging calls are left out, because they do not affect the results.
- `main`, `prepare_data` and the test driver's file generation are left out. They only produce input files and keyword lists, and the keywords they write are lower-cased already.
- Python's sort is stable, but that is unobservable here: equal tuples are identical.

=== FILE: collect.dfy ===
/**
  How the matches of concurrent workers reach the searcher's result list.
  Threads append under a lock and processes put onto a shared queue that
  the parent drains; either way each worker's matches arrive in the order
  that worker produced them, interleaved arbitrarily with the others', and
  all of them arrive once every worker has finished (join, or the final
  drain after the last worker exits).
 */
module Collect {
  import opened Seqs

  /**
    The arrival order under the schedule `picks`: `picks[j]` names the
    worker whose next match arrives next. A pick naming no worker, or a
    worker with nothing left, delivers nothing. When the schedule runs out,
    what is left arrives in worker order.
   */
  function Interleave<T>(outputs: seq<seq<T>>, picks: seq<nat>): (r: seq<T>)
    ensures multiset(r) == multiset(Flatten(outputs))
    decreases |picks|
  {
    if |picks| == 0 then Flatten(outputs)
    else
      var p := picks[0];
      if p < |outputs| && |outputs[p]| > 0 then
        var head := outputs[p][0];
        var tail := outputs[p][1..];
        var rest := Interleave(outputs[p := tail], picks[1..]);
        FlattenDropHead(outputs, p);
        assert multiset([head] + rest) == multiset{head} + multiset(rest);
        [head] + rest
      else
        Interleave(outputs, picks[1..])
  }

  /** With a single producer, whatever the schedule, its matches arrive exactly in its own order. */
  lemma {:induction false} InterleaveSingle<T>(s: seq<T>, picks: seq<nat>)
    ensures Interleave([s], picks) == s
    decreases |picks|
  {
    if |picks| == 0 {
      assert [s][1..] == [];
      assert Flatten([s]) == s + Flatten([]);
    } else if picks[0] == 0 && |s| > 0 {
      InterleaveSingle(s[1..], picks[1..]);
      SingleTakesHead(s, picks);
    } else {
      InterleaveSingle(s, picks[1..]);
    }
  }

  /** A pick of the only producer delivers its head, then the rest under the remaining picks. */
  lemma SingleTakesHead<T>(s: seq<T>, picks: seq<nat>)
    requires |picks| > 0 && picks[0] == 0 && |s| > 0
    requires Interleave([s[1..]], picks[1..]) == s[1..]
    ensures Interleave([s], picks) == s
  {
    assert [s][0 := s[1..]] == [s[1..]];
    assert s == [s[0]] + s[1..];
  }

  /**
    `r` is an order-keeping merge of the outputs, with `labels` naming for
    each position of `r` the worker it came from: worker `w` is named
    exactly `|outputs[w]|` times, and the `c`-th time it is named, its
    `c`-th match is the one delivered. Every order a lock or a result queue
    can produce has such labels.
   */
  ghost predicate IsMerge<T>(outputs: seq<seq<T>>, labels: seq<nat>, r: seq<T>)
  {
    && |labels| == |r|
    && (forall w :: 0 <= w < |outputs| ==> multiset(labels)[w] == |outputs[w]|)
    && (forall j :: 0 <= j < |labels| ==> MergeAt(outputs, labels, r, j))
  }

  /** The schedules are complete: picking the workers in label order delivers exactly the merge. */
  lemma {:induction false} InterleaveReachesEveryMerge<T>(outputs: seq<seq<T>>, labels: seq<nat>, r: seq<T>)
    requires IsMerge(outputs, labels, r)
    ensures Interleave(outputs, labels) == r
    decreases |labels|
  {
    if |labels| == 0 {
      forall w | 0 <= w < |outputs| ensures outputs[w] == [] {
        assert multiset(labels)[w] == 0;
      }
      EmptyListsFlatten(outputs);
    } else {
      var p := labels[0];
      MergeTail(outputs, labels, r);
      InterleaveReachesEveryMerge(outputs[p := outputs[p][1..]], labels[1..], r[1..]);
    }
  }

  /** Delivering the first match of a merge leaves a merge of what is left. */
  lemma MergeTail<T>(outputs: seq<seq<T>>, labels: seq<nat>, r: seq<T>)
    requires IsMerge(outputs, labels, r) && |labels| > 0
    ensures labels[0] < |outputs| && |outputs[labels[0]]| > 0
    ensures r == [outputs[labels[0]][0]] + r[1..]
    ensures IsMerge(outputs[labels[0] := outputs[labels[0]][1..]], labels[1..], r[1..])
  {
    var p := labels[0];
    assert MergeAt(outputs, labels, r, 0);
    assert labels[..0] == [];
    assert r == [r[0]] + r[1..];
    MergeTailCounts(outputs, labels, r);
    var rest, tl, tr := outputs[p := outputs[p][1..]], labels[1..], r[1..];
    forall j | 0 <= j < |tl|
      ensures MergeAt(rest, tl, tr, j)
    {
      MergeTailAt(outputs, labels, r, j);
    }
  }

  /** Position `j` of a merge delivers the right match of the right worker. */
  ghost predicate MergeAt<T>(outputs: seq<seq<T>>, labels: seq<nat>, r: seq<T>, j: nat)
    requires j < |labels| && |labels| == |r|
  {
    && labels[j] < |outputs|
    && multiset(labels[..j])[labels[j]] < |outputs[labels[j]]|
    && r[j] == outputs[labels[j]][multiset(labels[..j])[labels[j]]]
  }

  /** Taking one label of `p` off the front leaves each worker named once per match it has left. */
  lemma MergeTailCounts<T>(outputs: seq<seq<T>>, labels: seq<nat>, r: seq<T>)
    requires IsMerge(outputs, labels, r) && |labels| > 0 && labels[0] < |outputs|
    ensures forall w :: 0 <= w < |outputs| ==>
      multiset(labels[1..])[w] == |outputs[labels[0] := outputs[labels[0]][1..]][w]|
  {
    var p := labels[0];
    assert labels == [p] + labels[1..];
    assert multiset(labels) == multiset{p} + multiset(labels[1..]);
  }

  /** Position `j + 1` of a merge becomes position `j` of the merge that is left. */
  lemma MergeTailAt<T>(outputs: seq<seq<T>>, labels: seq<nat>, r: seq<T>, j: nat)
    requires IsMerge(outputs, labels, r) && j + 1 < |labels| && labels[0] < |outputs|
    ensures MergeAt(outputs[labels[0] := outputs[labels[0]][1..]], labels[1..], r[1..], j)
  {
    var p := labels[0];
    var tl := labels[1..];
    assert labels[..j + 1] == [p] + tl[..j];
    assert multiset(labels[..j + 1]) == multiset{p} + multiset(tl[..j]);
    assert labels[j + 1] == tl[j];
    assert MergeAt(outputs, labels, r, j + 1);
  }

  /**
    The schedules are sound: whatever the picks, each worker's matches
    arrive in the order that worker produced them, so every arrival order
    the model allows is one a lock or a result queue can produce.
   */
  lemma {:induction false} InterleaveKeepsWorkerOrder<T>(outputs: seq<seq<T>>, picks: seq<nat>)
    ensures exists labels :: IsMerge(outputs, labels, Interleave(outputs, picks))
    decreases |picks|
  {
    if |picks| == 0 {
      var labels := FlattenMerge(outputs);
      assert IsMerge(outputs, labels, Interleave(outputs, picks));
    } else {
      var p := picks[0];
      if p < |outputs| && |outputs[p]| > 0 {
        var rest := outputs[p := outputs[p][1..]];
        InterleaveKeepsWorkerOrder(rest, picks[1..]);
        var labels :| IsMerge(rest, labels, Interleave(rest, picks[1..]));
        MergeCons(outputs, p, labels, Interleave(rest, picks[1..]));
        assert IsMerge(outputs, [p] + labels, Interleave(outputs, picks));
      } else {
        InterleaveKeepsWorkerOrder(outputs, picks[1..]);
        var labels :| IsMerge(outputs, labels, Interleave(outputs, picks[1..]));
        assert Interleave(outputs, picks) == Interleave(outputs, picks[1..]);
        assert IsMerge(outputs, labels, Interleave(outputs, picks));
      }
    }
  }

  /** The index of the first worker with matches left, or `|ss|` when there is none. */
  function FirstNonEmpty<T>(ss: seq<seq<T>>): (p: nat)
    ensures p <= |ss|
    ensures forall i :: 0 <= i < p ==> ss[i] == []
    ensures p < |ss| ==> ss[p] != []
  {
    if |ss| == 0 || ss[0] != [] then 0 else 1 + FirstNonEmpty(ss[1..])
  }

  /** Flattening delivers the head of the first worker with matches left, then flattens the rest. */
  lemma {:induction false} FlattenAtFirst<T>(ss: seq<seq<T>>, p: nat)
    requires p < |ss| && ss[p] != []
    requires forall i :: 0 <= i < p ==> ss[i] == []
    ensures Flatten(ss) == [ss[p][0]] + Flatten(ss[p := ss[p][1..]])
  {
    if p == 0 {
      assert ss[0 := ss[0][1..]][1..] == ss[1..];
    } else {
      assert ss[p := ss[p][1..]][1..] == ss[1..][p - 1 := ss[p][1..]];
      FlattenAtFirst(ss[1..], p - 1);
    }
  }

  /** Worker order, one worker after another, is itself an order-keeping merge. */
  lemma {:induction false} FlattenMerge<T>(outputs: seq<seq<T>>) returns (labels: seq<nat>)
    ensures IsMerge(outputs, labels, Flatten(outputs))
    decreases |Flatten(outputs)|
  {
    var p := FirstNonEmpty(outputs);
    if p == |outputs| {
      EmptyListsFlatten(outputs);
      labels := [];
      forall w | 0 <= w < |outputs| ensures multiset(labels)[w] == |outputs[w]| {
        assert outputs[w] == [];
      }
    } else {
      var rest := outputs[p := outputs[p][1..]];
      FlattenAtFirst(outputs, p);
      var tail := FlattenMerge(rest);
      MergeCons(outputs, p, tail, Flatten(rest));
      labels := [p] + tail;
    }
  }

  /** Delivering a worker's first match ahead of a merge of what is left gives a merge. */
  lemma MergeCons<T>(outputs: seq<seq<T>>, p: nat, labels: seq<nat>, r: seq<T>)
    requires p < |outputs| && |outputs[p]| > 0
    requires IsMerge(outputs[p := outputs[p][1..]], labels, r)
    ensures IsMerge(outputs, [p] + labels, [outputs[p][0]] + r)
  {
    var all, whole := [p] + labels, [outputs[p][0]] + r;
    assert all[..0] == [];
    assert MergeAt(outputs, all, whole, 0);
    assert multiset(all) == multiset{p} + multiset(labels);
    forall j | 1 <= j < |all|
      ensures MergeAt(outputs, all, whole, j)
    {
      MergeConsAt(outputs, p, labels, r, j - 1);
    }
  }

  /** Position `j` of the merge that is left becomes position `j + 1` once the head is delivered first. */
  lemma MergeConsAt<T>(outputs: seq<seq<T>>, p: nat, labels: seq<nat>, r: seq<T>, j: nat)
    requires p < |outputs| && |outputs[p]| > 0
    requires IsMerge(outputs[p := outputs[p][1..]], labels, r) && j < |labels|
    ensures MergeAt(outputs, [p] + labels, [outputs[p][0]] + r, j + 1)
  {
    var all := [p] + labels;
    assert all[..j + 1] == [p] + labels[..j];
    assert multiset(all[..j + 1]) == multiset{p} + multiset(labels[..j]);
    assert all[j + 1] == labels[j];
    assert MergeAt(outputs[p := outputs[p][1..]], labels, r, j);
  }
}

=== FILE: file_queue.dfy ===
/**
  The dynamic file queue of the queue-based multi-process searcher: every
  file is put on one shared queue before any worker starts, and each
  worker pops one file at a time (non-blocking) until the queue reports
  `Empty`. The interleaving of the workers' pops is a parameter.
 */
module FileQueue {
  import opened Seqs
  import opened Matches
  import opened Matcher

  /** The files still queued, and the files each worker has taken so far, in the order taken. */
  datatype QueueState = QueueState(pending: seq<string>, taken: seq<seq<string>>)

  /** Every file is queued, in list order, and none of the `n` workers has taken anything. */
  function Enqueue(files: seq<string>, n: nat): (st: QueueState)
    ensures st.pending == files && |st.taken| == n
    ensures multiset(Flatten(st.taken)) == multiset{}
  {
    var none := seq(n, w => []);
    assert Flatten(none) == [] by {
      EmptyListsFlatten(none);
    }
    QueueState(files, none)
  }

  /**
    One non-blocking `get` by worker `w`: it takes the file at the head of
    the queue; on an empty queue it gets `Empty` and nothing changes.
   */
  function Pop(st: QueueState, w: nat): (r: QueueState)
    requires w < |st.taken|
    ensures |r.taken| == |st.taken|
    ensures |st.pending| == 0 ==> r == st
    ensures |st.pending| > 0 ==> r.pending == st.pending[1..]
    ensures |st.pending| > 0 ==> r.taken[w] == st.taken[w] + [st.pending[0]]
    ensures forall v :: 0 <= v < |st.taken| && v != w ==> r.taken[v] == st.taken[v]
  {
    if |st.pending| == 0 then st
    else QueueState(st.pending[1..], st.taken[w := st.taken[w] + [st.pending[0]]])
  }

  /** A pop neither creates nor loses a file: it only moves the head of the queue to a worker. */
  lemma PopConserves(st: QueueState, w: nat)
    requires w < |st.taken|
    ensures multiset(Flatten(Pop(st, w).taken)) + multiset(Pop(st, w).pending)
            == multiset(Flatten(st.taken)) + multiset(st.pending)
  {
    if |st.pending| > 0 {
      var f := st.pending[0];
      assert Pop(st, w).taken == st.taken[w := st.taken[w] + [f]];
      FlattenAppendTo(st.taken, w, f);
      assert st.pending == [f] + st.pending[1..];
      assert multiset(st.pending) == multiset{f} + multiset(st.pending[1..]);
    }
  }

  /** The pops in schedule order: `owners[j]` is the worker making the `j`-th pop. */
  function RunPops(st: QueueState, owners: seq<nat>): (r: QueueState)
    requires forall j :: 0 <= j < |owners| ==> owners[j] < |st.taken|
    ensures |r.taken| == |st.taken|
    ensures |owners| >= |st.pending| ==> r.pending == []
    decreases |owners|
  {
    if |owners| == 0 then st
    else RunPops(Pop(st, owners[0]), owners[1..])
  }

  /** Under any schedule, every file is either still queued or held by exactly one worker. */
  lemma {:induction false} RunPopsConserves(st: QueueState, owners: seq<nat>)
    requires forall j :: 0 <= j < |owners| ==> owners[j] < |st.taken|
    ensures multiset(Flatten(RunPops(st, owners).taken)) + multiset(RunPops(st, owners).pending)
            == multiset(Flatten(st.taken)) + multiset(st.pending)
    decreases |owners|
  {
    if |owners| > 0 {
      PopConserves(st, owners[0]);
      RunPopsConserves(Pop(st, owners[0]), owners[1..]);
    }
  }

  /**
    The files worker `w` receives when the `j`-th pop is made by
    `owners[j]`: the files at the positions it popped, in queue order.
   */
  function Assigned(files: seq<string>, owners: seq<nat>, w: nat): (mine: seq<string>)
  {
    if |files| == 0 || |owners| == 0 then []
    else (if owners[0] == w then [files[0]] else []) + Assigned(files[1..], owners[1..], w)
  }

  /** After the pops, the files behind the last successful pop are still queued, in order. */
  lemma {:induction false} RunPopsPending(files: seq<string>, taken: seq<seq<string>>, owners: seq<nat>)
    requires forall j :: 0 <= j < |owners| ==> owners[j] < |taken|
    ensures RunPops(QueueState(files, taken), owners).pending == files[Min(|owners|, |files|)..]
    decreases |owners|
  {
    var st := QueueState(files, taken);
    if |owners| > 0 {
      var next := Pop(st, owners[0]);
      assert RunPops(st, owners) == RunPops(next, owners[1..]);
      RunPopsPending(next.pending, next.taken, owners[1..]);
      if |files| > 0 {
        assert files[1..][Min(|owners| - 1, |files| - 1)..] == files[Min(|owners|, |files|)..];
      }
    }
  }

  /**
    Running the pops from a queue holding `files` appends to each worker
    exactly the files at the positions it popped, in queue order.
   */
  lemma {:induction false} RunPopsAssigns(files: seq<string>, taken: seq<seq<string>>, owners: seq<nat>, w: nat)
    requires forall j :: 0 <= j < |owners| ==> owners[j] < |taken|
    requires w < |taken|
    ensures RunPops(QueueState(files, taken), owners).taken[w] == taken[w] + Assigned(files, owners, w)
    decreases |owners|
  {
    var st := QueueState(files, taken);
    if |owners| == 0 {
      assert RunPops(st, owners) == st;
    } else {
      var o := owners[0];
      var next := Pop(st, o);
      assert RunPops(st, owners) == RunPops(next, owners[1..]);
      RunPopsAssigns(next.pending, next.taken, owners[1..], w);
      if |files| == 0 {
        assert next == st;
      } else {
        assert next.pending == files[1..];
        assert next.taken == taken[o := taken[o] + [files[0]]];
        assert Assigned(files, owners, w)
               == (if o == w then [files[0]] else []) + Assigned(files[1..], owners[1..], w);
      }
    }
  }

  /** The worker making pop `j`: `pops[j] mod n`, and round-robin beyond the schedule. */
  function PopOwner(pops: seq<nat>, n: nat, j: nat): (w: nat)
    requires n >= 1
    ensures w < n
  {
    if j < |pops| then pops[j] % n else j % n
  }

  /** The owners of the first `count` pops under the schedule `pops`. */
  function Owners(pops: seq<nat>, n: nat, count: nat): (r: seq<nat>)
    requires n >= 1
    ensures |r| == count
    ensures forall j :: 0 <= j < count ==> r[j] < n
  {
    seq(count, j requires 0 <= j < count => PopOwner(pops, n, j))
  }

  /**
    Every assignment of the `count` queue positions to the `n` workers is
    produced by some schedule: the assignment itself, read as a schedule.
   */
  lemma OwnersReachEveryAssignment(owners: seq<nat>, n: nat)
    requires n >= 1
    requires forall j :: 0 <= j < |owners| ==> owners[j] < n
    ensures Owners(owners, n, |owners|) == owners
  {
    forall j | 0 <= j < |owners|
      ensures Owners(owners, n, |owners|)[j] == owners[j]
    {
      ModOfSmaller(owners[j], n);
      assert PopOwner(owners, n, j) == owners[j];
    }
  }

  lemma ModOfSmaller(x: nat, n: nat)
    requires x < n
    ensures x % n == x
  {
  }

  /**
    The files each of the `n >= 1` workers takes: workers pop until the
    queue reports `Empty`, so the queue ends empty and every queued file
    is taken by exactly one worker.
   */
  function DrainQueue(files: seq<string>, n: nat, pops: seq<nat>): (taken: seq<seq<string>>)
    requires n >= 1
    ensures |taken| == n
    ensures multiset(Flatten(taken)) == multiset(files)
  {
    var owners := Owners(pops, n, |files|);
    var st := Enqueue(files, n);
    var r := RunPops(st, owners);
    RunPopsConserves(st, owners);
    assert r.pending == [];
    var got := multiset(Flatten(r.taken));
    assert got + multiset(r.pending) == multiset{} + multiset(files);
    assert multiset(r.pending) == multiset{};
    assert got + multiset{} == got;
    assert multiset{} + multiset(files) == multiset(files);
    r.taken
  }

  /** Worker `w` ends up with exactly the files at the queue positions it popped, in queue order. */
  lemma DrainQueueAssigns(files: seq<string>, n: nat, pops: seq<nat>, w: nat)
    requires n >= 1 && w < n
    ensures DrainQueue(files, n, pops)[w] == Assigned(files, Owners(pops, n, |files|), w)
  {
    RunPopsAssigns(files, Enqueue(files, n).taken, Owners(pops, n, |files|), w);
  }

  /** Handing worker `w` one more file appends that file's matches to `w`'s output and to no other. */
  lemma MapWorkerStep(fs: FileSystem, taken: seq<seq<string>>, keyWords: seq<string>, w: nat, f: string)
    requires w < |taken|
    ensures MapWorker(fs, taken[w := taken[w] + [f]], keyWords)
            == MapWorker(fs, taken, keyWords)[w := MapWorker(fs, taken, keyWords)[w] + SearchWords(fs, f, keyWords)]
  {
    var lhs := MapWorker(fs, taken[w := taken[w] + [f]], keyWords);
    var before := MapWorker(fs, taken, keyWords);
    var rhs := before[w := before[w] + SearchWords(fs, f, keyWords)];
    WorkerAppend(fs, taken[w], [f], keyWords);
    assert [f][0] == f && [f][1..] == [];
    assert Worker(fs, [f], keyWords) == SearchWords(fs, f, keyWords) + Worker(fs, [], keyWords);
    assert |lhs| == |rhs|;
    forall v | 0 <= v < |lhs|
      ensures lhs[v] == rhs[v]
    {
      if v == w {
        assert lhs[v] == Worker(fs, taken[w] + [f], keyWords);
      } else {
        assert lhs[v] == Worker(fs, taken[v], keyWords);
      }
    }
  }

  /**
    The queue-based worker loop, run to completion under the pop schedule:
    pop a file, search it, hand the matches to the popping worker, until
    the queue is empty. Together the workers produce the same bag of
    matches as one worker searching the whole list.
   */
  method RunQueueWorkers(fs: FileSystem, files: seq<string>, keyWords: seq<string>, n: nat, pops: seq<nat>)
    returns (outputs: seq<seq<Match>>)
    requires n >= 1
    ensures |outputs| == n
    ensures multiset(Flatten(outputs)) == multiset(Worker(fs, files, keyWords))
    ensures outputs == MapWorker(fs, DrainQueue(files, n, pops), keyWords)
  {
    var owners := Owners(pops, n, |files|);
    var st := Enqueue(files, n);
    var final := RunPops(st, owners);
    outputs := seq(n, w => []);
    var j := 0;
    while |st.pending| > 0
      invariant |st.taken| == n && |outputs| == n
      invariant j + |st.pending| == |files|
      invariant outputs == MapWorker(fs, st.taken, keyWords)
      invariant RunPops(st, owners[j..]) == final
      decreases |st.pending|
    {
      var w := owners[j];
      var f := st.pending[0];
      var found := ScanFile(fs, f, keyWords);
      var prev := st.taken;
      RunPopsStep(st, owners, j);
      st := Pop(st, w);
      assert st.taken == prev[w := prev[w] + [f]];
      MapWorkerStep(fs, prev, keyWords, w, f);
      outputs := outputs[w := outputs[w] + found];
      j := j + 1;
    }
    assert owners[j..] == [];
    var taken := DrainQueue(files, n, pops);
    assert taken == final.taken;
    WorkerFlatten(fs, taken, keyWords);
    WorkerPermutation(fs, Flatten(taken), files, keyWords);
  }

  /** Running the pops from position `j` on is making pop `j`, then running the pops after it. */
  lemma RunPopsStep(st: QueueState, owners: seq<nat>, j: nat)
    requires j < |owners|
    requires forall i :: 0 <= i < |owners| ==> owners[i] < |st.taken|
    ensures RunPops(st, owners[j..]) == RunPops(Pop(st, owners[j]), owners[j + 1..])
  {
    assert owners[j..][0] == owners[j];
    assert owners[j..][1..] == owners[j + 1..];
  }
}

=== FILE: matcher.dfy ===
/**
  The per-file keyword matcher (`search_words`) and the per-worker loop
  over a list of files (`worker`). The file system is a map from file name
  to its lines; a name that is not a key cannot be opened.
 */
module Matcher {
  import opened Seqs
  import opened Text
  import opened Matches

  /** File name to its lines, without line terminators. */
  type FileSystem = map<string, seq<string>>

  /**
    The matches of one line, already lower-cased, as line number `i` of
    `file`: one match per keyword entry that occurs in the line, in
    keyword-list order.
   */
  function LineMatches(keyWords: seq<string>, file: string, i: nat, line: string): (r: seq<Match>)
    ensures forall m | m in r ::
              m.file == file && m.line == i && m.keyword in keyWords && Contains(line, m.keyword)
    decreases |keyWords|
  {
    if |keyWords| == 0 then []
    else
      var w := keyWords[|keyWords| - 1];
      LineMatches(keyWords[..|keyWords| - 1], file, i, line)
        + (if Contains(line, w) then [Match(w, file, i)] else [])
  }

  /** The matches of all `lines`, line by line; each line is lower-cased before the tests. */
  function LinesMatches(lines: seq<string>, keyWords: seq<string>, file: string): (r: seq<Match>)
    ensures forall m | m in r ::
              m.file == file && m.line < |lines| && m.keyword in keyWords
              && Contains(Lower(lines[m.line]), m.keyword)
    ensures forall a, b :: 0 <= a < b < |r| ==> r[a].line <= r[b].line
    ensures |keyWords| == 0 ==> r == []
  {
    if |lines| == 0 then []
    else
      var n := |lines| - 1;
      var prefix := LinesMatches(lines[..n], keyWords, file);
      assert forall m | m in prefix :: m.line < n && lines[m.line] == lines[..n][m.line];
      prefix + LineMatches(keyWords, file, n, Lower(lines[n]))
  }

  /**
    `search_words`: the matches of one file. A file that cannot be opened
    is logged and contributes nothing.
   */
  function SearchWords(fs: FileSystem, file: string, keyWords: seq<string>): (r: seq<Match>)
    ensures file !in fs ==> r == []
    ensures forall m | m in r ::
              file in fs && m.file == file && m.line < |fs[file]| && m.keyword in keyWords
              && Contains(Lower(fs[file][m.line]), m.keyword)
    ensures forall a, b :: 0 <= a < b < |r| ==> r[a].line <= r[b].line
    ensures |keyWords| == 0 ==> r == []
  {
    if file in fs then LinesMatches(fs[file], keyWords, file) else []
  }

  /** The inner keyword loop of `search_words` on one lowered line: one push per keyword entry it contains. */
  method ScanLine(keyWords: seq<string>, file: string, i: nat, line: string) returns (hits: seq<Match>)
    ensures hits == LineMatches(keyWords, file, i, line)
  {
    hits := [];
    var j := 0;
    while j < |keyWords|
      invariant 0 <= j <= |keyWords|
      invariant hits == LineMatches(keyWords[..j], file, i, line)
    {
      if Contains(line, keyWords[j]) {
        hits := hits + [Match(keyWords[j], file, i)];
      }
      assert keyWords[..j + 1][..j] == keyWords[..j];
      j := j + 1;
    }
    assert keyWords[..j] == keyWords;
  }

  /**
    `search_words` as the source writes it: the outer loop over the lines,
    lowering each, then the keyword loop, one push per hit.
   */
  method ScanFile(fs: FileSystem, file: string, keyWords: seq<string>) returns (pushed: seq<Match>)
    ensures pushed == SearchWords(fs, file, keyWords)
  {
    pushed := [];
    if file !in fs {
      return;
    }
    var lines := fs[file];
    var i := 0;
    while i < |lines|
      invariant 0 <= i <= |lines|
      invariant pushed == LinesMatches(lines[..i], keyWords, file)
    {
      var hits := ScanLine(keyWords, file, i, Lower(lines[i]));
      pushed := pushed + hits;
      assert lines[..i + 1][..i] == lines[..i];
      i := i + 1;
    }
    assert lines[..i] == lines;
  }

  /**
    Multiplicity: a line that contains keyword `w` yields `(w, file, i)`
    once per entry of `w` in the keyword list; there is no deduplication
    and no counting of occurrences within the line.
   */
  lemma {:induction false} LineMatchesCount(keyWords: seq<string>, file: string, i: nat, line: string, m: Match)
    ensures multiset(LineMatches(keyWords, file, i, line))[m]
            == if m.file == file && m.line == i && Contains(line, m.keyword)
               then multiset(keyWords)[m.keyword] else 0
    decreases |keyWords|
  {
    if |keyWords| > 0 {
      var n := |keyWords| - 1;
      var w := keyWords[n];
      var pre := LineMatches(keyWords[..n], file, i, line);
      var last := if Contains(line, w) then [Match(w, file, i)] else [];
      assert multiset(LineMatches(keyWords, file, i, line))[m] == multiset(pre)[m] + multiset(last)[m] by {
        assert LineMatches(keyWords, file, i, line) == pre + last;
      }
      assert multiset(last)[m]
             == if m.file == file && m.line == i && m.keyword == w && Contains(line, m.keyword) then 1 else 0 by {
        if m == Match(w, file, i) && Contains(line, w) {
          assert last == [m];
        } else {
          assert m !in last;
        }
      }
      LineMatchesCount(keyWords[..n], file, i, line, m);
      KeywordCountSnoc(keyWords, m.keyword);
    }
  }

  lemma KeywordCountSnoc(keyWords: seq<string>, k: string)
    requires |keyWords| > 0
    ensures multiset(keyWords)[k]
            == multiset(keyWords[..|keyWords| - 1])[k] + (if keyWords[|keyWords| - 1] == k then 1 else 0)
  {
    var n := |keyWords| - 1;
    assert keyWords == keyWords[..n] + [keyWords[n]];
  }

  /** Emission within a line follows the keyword list: splitting the list splits the output. */
  lemma {:induction false} LineMatchesAppend(a: seq<string>, b: seq<string>, file: string, i: nat, line: string)
    ensures LineMatches(a + b, file, i, line) == LineMatches(a, file, i, line) + LineMatches(b, file, i, line)
    decreases |b|
  {
    if |b| == 0 {
      assert a + b == a;
    } else {
      var n := |b| - 1;
      assert (a + b)[..|a + b| - 1] == a + b[..n];
      LineMatchesAppend(a, b[..n], file, i, line);
    }
  }

  lemma {:induction false} LinesMatchesCount(lines: seq<string>, keyWords: seq<string>, file: string, m: Match)
    ensures multiset(LinesMatches(lines, keyWords, file))[m]
            == if m.file == file && m.line < |lines| && Contains(Lower(lines[m.line]), m.keyword)
               then multiset(keyWords)[m.keyword] else 0
  {
    if |lines| > 0 {
      var n := |lines| - 1;
      LinesMatchesCount(lines[..n], keyWords, file, m);
      LineMatchesCount(keyWords, file, n, Lower(lines[n]), m);
      if m.line < n {
        assert lines[..n][m.line] == lines[m.line];
      }
    }
  }

  /**
    How often `search_words` emits a given triple: once per keyword entry
    equal to its keyword, provided the file exists, the line exists and the
    lower-cased line contains the keyword; otherwise never.
   */
  lemma SearchWordsCount(fs: FileSystem, file: string, keyWords: seq<string>, m: Match)
    ensures multiset(SearchWords(fs, file, keyWords))[m]
            == if file in fs && m.file == file && m.line < |fs[file]|
                  && Contains(Lower(fs[file][m.line]), m.keyword)
               then multiset(keyWords)[m.keyword] else 0
  {
    if file in fs {
      LinesMatchesCount(fs[file], keyWords, file, m);
    }
  }

  /** `(w, file, i)` is emitted exactly when keyword `w` is a substring of the lower-cased line `i`. */
  lemma SearchWordsIff(fs: FileSystem, file: string, keyWords: seq<string>, m: Match)
    ensures m in SearchWords(fs, file, keyWords)
            <==> file in fs && m.file == file && m.line < |fs[file]| && m.keyword in keyWords
                 && Contains(Lower(fs[file][m.line]), m.keyword)
  {
    SearchWordsCount(fs, file, keyWords, m);
    assert m in SearchWords(fs, file, keyWords) <==> multiset(SearchWords(fs, file, keyWords))[m] > 0;
    assert m.keyword in keyWords <==> multiset(keyWords)[m.keyword] > 0;
  }

  /**
    A keyword holding an ASCII capital (A-Z) never matches: the line is
    lowered, the keyword is not.
   */
  lemma UppercaseKeywordNeverMatches(fs: FileSystem, file: string, keyWords: seq<string>, w: string, k: nat)
    requires k < |w| && IsUpper(w[k])
    ensures forall m | m in SearchWords(fs, file, keyWords) :: m.keyword != w
  {
    forall m | m in SearchWords(fs, file, keyWords)
      ensures m.keyword != w
    {
      if m.keyword == w {
        UpperPatternNeverInLowered(fs[file][m.line], w, k);
      }
    }
  }

  /**
    `worker`: `search_words` on each file of the list in order; a missing
    file contributes nothing and the loop carries on.
   */
  function Worker(fs: FileSystem, files: seq<string>, keyWords: seq<string>): (r: seq<Match>)
    ensures forall m | m in r :: m.file in files && m.file in fs && m.keyword in keyWords
    ensures |keyWords| == 0 ==> r == []
  {
    if |files| == 0 then []
    else SearchWords(fs, files[0], keyWords) + Worker(fs, files[1..], keyWords)
  }

  lemma {:induction false} WorkerAppend(fs: FileSystem, a: seq<string>, b: seq<string>, keyWords: seq<string>)
    ensures Worker(fs, a + b, keyWords) == Worker(fs, a, keyWords) + Worker(fs, b, keyWords)
  {
    if |a| == 0 {
      assert a + b == b;
    } else {
      assert (a + b)[1..] == a[1..] + b;
      WorkerAppend(fs, a[1..], b, keyWords);
    }
  }

  /**
    A missing file does not disturb the run: the output is exactly that of
    the same list without it.
   */
  lemma WorkerSkipsMissing(fs: FileSystem, a: seq<string>, f: string, b: seq<string>, keyWords: seq<string>)
    requires f !in fs
    ensures Worker(fs, a + [f] + b, keyWords) == Worker(fs, a + b, keyWords)
  {
    var single := Worker(fs, [f], keyWords);
    assert single == [] by {
      assert [f][0] == f;
      assert [f][1..] == [];
      assert Worker(fs, [], keyWords) == [];
      assert SearchWords(fs, f, keyWords) == [];
      assert single == SearchWords(fs, f, keyWords) + Worker(fs, [], keyWords);
    }
    calc {
      Worker(fs, a + [f] + b, keyWords);
      { WorkerAppend(fs, a + [f], b, keyWords); }
      Worker(fs, a + [f], keyWords) + Worker(fs, b, keyWords);
      { WorkerAppend(fs, a, [f], keyWords); }
      Worker(fs, a, keyWords) + single + Worker(fs, b, keyWords);
      Worker(fs, a, keyWords) + Worker(fs, b, keyWords);
      { WorkerAppend(fs, a, b, keyWords); }
      Worker(fs, a + b, keyWords);
    }
  }

  /** A match comes out of the worker exactly when one of its files emits it. */
  lemma {:induction false} WorkerIff(fs: FileSystem, files: seq<string>, keyWords: seq<string>, m: Match)
    ensures m in Worker(fs, files, keyWords)
            <==> m.file in files && m in SearchWords(fs, m.file, keyWords)
  {
    if |files| > 0 {
      WorkerIff(fs, files[1..], keyWords, m);
      assert m.file in files <==> m.file == files[0] || m.file in files[1..];
    }
  }

  /** Removing the entry at position `j` of a list removes exactly that element from its multiset. */
  lemma MultisetRemoveAt<T>(b: seq<T>, j: nat)
    requires j < |b|
    ensures multiset(b) == multiset(b[..j] + b[j + 1..]) + multiset{b[j]}
  {
    assert b == b[..j] + [b[j]] + b[j + 1..];
  }

  /** The worker's output on a list splits around any one file of it. */
  lemma WorkerSplitAt(fs: FileSystem, b: seq<string>, j: nat, keyWords: seq<string>)
    requires j < |b|
    ensures Worker(fs, b, keyWords)
            == Worker(fs, b[..j], keyWords) + SearchWords(fs, b[j], keyWords) + Worker(fs, b[j + 1..], keyWords)
    ensures Worker(fs, b[..j] + b[j + 1..], keyWords) == Worker(fs, b[..j], keyWords) + Worker(fs, b[j + 1..], keyWords)
  {
    var tail := [b[j]] + b[j + 1..];
    assert b == b[..j] + tail;
    assert tail[1..] == b[j + 1..];
    WorkerAppend(fs, b[..j], tail, keyWords);
    WorkerAppend(fs, b[..j], b[j + 1..], keyWords);
  }

  /** Matching the head of `a` with entry `j` of `b` leaves two tails that are still permutations of each other. */
  lemma PermutationTails<T>(a: seq<T>, b: seq<T>, j: nat)
    requires multiset(a) == multiset(b)
    requires |a| > 0 && j < |b| && b[j] == a[0]
    ensures multiset(a[1..]) == multiset(b[..j] + b[j + 1..])
  {
    var x := a[0];
    var ma := multiset(a[1..]);
    var mr := multiset(b[..j] + b[j + 1..]);
    assert a == [x] + a[1..];
    MultisetRemoveAt(b, j);
    assert ma + multiset{x} == mr + multiset{x};
    assert ma == ma + multiset{x} - multiset{x};
    assert mr == mr + multiset{x} - multiset{x};
  }

  /**
    One step of the permutation argument: if the tails left after pairing
    the head of `a` with entry `j` of `b` yield the same bag of matches, so
    do `a` and `b`.
   */
  lemma WorkerPermutationStep(fs: FileSystem, a: seq<string>, b: seq<string>, j: nat, keyWords: seq<string>)
    requires |a| > 0 && j < |b| && b[j] == a[0]
    requires multiset(Worker(fs, a[1..], keyWords)) == multiset(Worker(fs, b[..j] + b[j + 1..], keyWords))
    ensures multiset(Worker(fs, a, keyWords)) == multiset(Worker(fs, b, keyWords))
  {
    WorkerSplitAt(fs, b, j, keyWords);
    var hit := multiset(SearchWords(fs, a[0], keyWords));
    var left := multiset(Worker(fs, b[..j], keyWords));
    var right := multiset(Worker(fs, b[j + 1..], keyWords));
    assert Worker(fs, a, keyWords) == SearchWords(fs, a[0], keyWords) + Worker(fs, a[1..], keyWords);
    assert left + hit + right == hit + (left + right);
  }

  /** The bag of matches depends only on the bag of files, not on their order. */
  lemma {:induction false} WorkerPermutation(fs: FileSystem, a: seq<string>, b: seq<string>, keyWords: seq<string>)
    requires multiset(a) == multiset(b)
    ensures multiset(Worker(fs, a, keyWords)) == multiset(Worker(fs, b, keyWords))
    decreases |a|
  {
    if |a| == 0 {
      assert |b| == |multiset(b)| == 0;
    } else {
      assert a[0] in multiset(b) by {
        assert a[0] in multiset(a);
      }
      var j :| 0 <= j < |b| && b[j] == a[0];
      PermutationTails(a, b, j);
      WorkerPermutation(fs, a[1..], b[..j] + b[j + 1..], keyWords);
      WorkerPermutationStep(fs, a, b, j, keyWords);
    }
  }

  /** Runs the worker loop once per group of files, one list of matches per group. */
  function MapWorker(fs: FileSystem, groups: seq<seq<string>>, keyWords: seq<string>): (r: seq<seq<Match>>)
    ensures |r| == |groups|
    ensures forall i :: 0 <= i < |groups| ==> r[i] == Worker(fs, groups[i], keyWords)
  {
    seq(|groups|, i requires 0 <= i < |groups| => Worker(fs, groups[i], keyWords))
  }

  /** Running the groups separately yields, in group order, what one run over all their files yields. */
  lemma {:induction false} WorkerFlatten(fs: FileSystem, groups: seq<seq<string>>, keyWords: seq<string>)
    ensures Flatten(MapWorker(fs, groups, keyWords)) == Worker(fs, Flatten(groups), keyWords)
  {
    if |groups| > 0 {
      WorkerFlatten(fs, groups[1..], keyWords);
      WorkerAppend(fs, groups[0], Flatten(groups[1..]), keyWords);
      assert MapWorker(fs, groups, keyWords)[1..] == MapWorker(fs, groups[1..], keyWords);
    }
  }
}

=== FILE: matches.dfy ===
/**
  A match is the tuple `(keyword, file_name, line_number)` the searcher
  emits. Python orders such tuples lexicographically, comparing strings by
  code point; the final `results.sort()` sorts by exactly that order.
 */
module Matches {
  import opened Text

  datatype Match = Match(keyword: string, file: string, line: nat)

  /** Python's `x <= y` on `(keyword, file_name, line_number)` tuples. */
  predicate Le(x: Match, y: Match)
  {
    if x.keyword != y.keyword then StrLe(x.keyword, y.keyword)
    else if x.file != y.file then StrLe(x.file, y.file)
    else x.line <= y.line
  }

  lemma LeReflexive(x: Match)
    ensures Le(x, x)
  {
  }

  lemma LeTotal(x: Match, y: Match)
    ensures Le(x, y) || Le(y, x)
  {
    StrLeTotal(x.keyword, y.keyword);
    StrLeTotal(x.file, y.file);
  }

  lemma LeAntisymmetric(x: Match, y: Match)
    requires Le(x, y) && Le(y, x)
    ensures x == y
  {
    if x.keyword != y.keyword {
      StrLeAntisymmetric(x.keyword, y.keyword);
    } else if x.file != y.file {
      StrLeAntisymmetric(x.file, y.file);
    }
  }

  lemma LeTransitive(x: Match, y: Match, z: Match)
    requires Le(x, y) && Le(y, z)
    ensures Le(x, z)
  {
    if x.keyword != y.keyword && y.keyword != z.keyword {
      StrLeTransitive(x.keyword, y.keyword, z.keyword);
      if x.keyword == z.keyword {
        StrLeAntisymmetric(x.keyword, y.keyword);
      }
    } else if x.keyword == y.keyword && y.keyword == z.keyword {
      if x.file != y.file && y.file != z.file {
        StrLeTransitive(x.file, y.file, z.file);
        if x.file == z.file {
          StrLeAntisymmetric(x.file, y.file);
        }
      }
    }
  }

  /** Ascending in tuple order. */
  predicate Sorted(s: seq<Match>)
  {
    forall i, j :: 0 <= i < j < |s| ==> Le(s[i], s[j])
  }

  /** Putting an element in front of a sorted list that it bounds from below keeps the list sorted. */
  lemma ConsSorted(x: Match, s: seq<Match>)
    requires Sorted(s)
    requires forall j :: 0 <= j < |s| ==> Le(x, s[j])
    ensures Sorted([x] + s)
  {
    var r := [x] + s;
    forall i, j | 0 <= i < j < |r|
      ensures Le(r[i], r[j])
    {
      if i > 0 {
        assert r[i] == s[i - 1] && r[j] == s[j - 1];
      } else {
        assert r[j] == s[j - 1];
      }
    }
  }

  /**
    When `m` belongs after the head of a sorted list, the head bounds from
    below everything the insertion into the tail yields.
   */
  lemma HeadBoundsInsert(m: Match, s: seq<Match>, rest: seq<Match>)
    requires Sorted(s) && |s| > 0 && !Le(m, s[0])
    requires multiset(rest) == multiset(s[1..]) + multiset{m}
    ensures forall j :: 0 <= j < |rest| ==> Le(s[0], rest[j])
  {
    var tail := s[1..];
    LeTotal(m, s[0]);
    forall j | 0 <= j < |rest|
      ensures Le(s[0], rest[j])
    {
      var x := rest[j];
      assert x in multiset(rest);
      if x != m {
        assert x in multiset(tail);
        var t :| 0 <= t < |tail| && tail[t] == x;
        assert s[t + 1] == x;
      }
    }
  }

  /** Inserts `m` into a sorted list, keeping it sorted. */
  function Insert(m: Match, s: seq<Match>): (r: seq<Match>)
    requires Sorted(s)
    ensures Sorted(r)
    ensures multiset(r) == multiset(s) + multiset{m}
  {
    if |s| == 0 then [m]
    else if Le(m, s[0]) then
      assert forall j :: 0 <= j < |s| ==> Le(m, s[j]) by {
        forall j | 0 < j < |s| {
          LeTransitive(m, s[0], s[j]);
        }
        LeReflexive(m);
      }
      ConsSorted(m, s);
      [m] + s
    else
      var tail := s[1..];
      var rest := Insert(m, tail);
      HeadBoundsInsert(m, s, rest);
      ConsSorted(s[0], rest);
      assert s == [s[0]] + tail;
      [s[0]] + rest
  }

  /**
    The final `results.sort()`: returns the elements of `s` in ascending
    tuple order.
   */
  function SortMatches(s: seq<Match>): (r: seq<Match>)
    ensures Sorted(r)
    ensures multiset(r) == multiset(s)
  {
    if |s| == 0 then []
    else
      assert s == [s[0]] + s[1..];
      Insert(s[0], SortMatches(s[1..]))
  }

  /** The first element of a sorted list is at most every element of it. */
  lemma SortedHeadIsLeast(s: seq<Match>, x: Match)
    requires Sorted(s) && x in multiset(s)
    ensures Le(s[0], x)
  {
    var j :| 0 <= j < |s| && s[j] == x;
    if j == 0 {
      LeReflexive(x);
    }
  }

  /**
    Two sorted lists holding the same multiset of matches are identical.
    This is why every collection order sorts to the same final list.
   */
  lemma {:induction false} SortedUnique(a: seq<Match>, b: seq<Match>)
    requires Sorted(a) && Sorted(b)
    requires multiset(a) == multiset(b)
    ensures a == b
  {
    if |a| == 0 {
      assert |b| == |multiset(b)| == 0;
    } else {
      assert |b| == |multiset(b)| == |a|;
      assert a[0] in multiset(b) && b[0] in multiset(a);
      SortedHeadIsLeast(b, a[0]);
      SortedHeadIsLeast(a, b[0]);
      LeAntisymmetric(a[0], b[0]);
      assert a == [a[0]] + a[1..];
      assert b == [b[0]] + b[1..];
      assert multiset(a) == multiset{a[0]} + multiset(a[1..]);
      assert multiset(b) == multiset{b[0]} + multiset(b[1..]);
      assert multiset(a[1..]) == multiset(a) - multiset{a[0]};
      assert multiset(b[1..]) == multiset(b) - multiset{b[0]};
      SortedUnique(a[1..], b[1..]);
    }
  }

  /** Sorting depends only on the multiset of its input. */
  lemma SortPermutationInvariant(a: seq<Match>, b: seq<Match>)
    requires multiset(a) == multiset(b)
    ensures SortMatches(a) == SortMatches(b)
  {
    SortedUnique(SortMatches(a), SortMatches(b));
  }

  /** Sorting a list that is already sorted leaves it as it is. */
  lemma SortSortedIsIdentity(s: seq<Match>)
    requires Sorted(s)
    ensures SortMatches(s) == s
  {
    SortedUnique(SortMatches(s), s);
  }
}

=== FILE: partition.dfy ===
/**
  Static partitioning, as done by the multi-thread and multi-process
  searchers: worker `i` of `n` gets the slice
  `files[i * k : (i + 1) * k]` with `k = (len(files) + n - 1) // n`.
 */
module Partition {
  import opened Seqs

  /**
    `files_per_worker`: the ceiling of `count / n`, the smallest chunk
    size with which `n` chunks cover `count` files.
   */
  function FilesPerWorker(count: nat, n: nat): (k: nat)
    requires n >= 1
    ensures k * n >= count
    ensures k > 0 ==> (k - 1) * n < count
  {
    var q := (count + n - 1) / n;
    var rem := (count + n - 1) % n;
    assert count + n - 1 == q * n + rem;
    assert q * n - n == (q - 1) * n;
    q
  }

  /**
    Python's `s[lo:hi]` for non-negative bounds: each bound is clipped to
    the length, and an inverted range is empty.
   */
  function PySlice<T>(s: seq<T>, lo: nat, hi: nat): (r: seq<T>)
    ensures |r| == if Min(lo, |s|) <= Min(hi, |s|) then Min(hi, |s|) - Min(lo, |s|) else 0
    ensures forall j :: 0 <= j < |r| ==> lo + j < |s| && r[j] == s[lo + j]
  {
    var a := Min(lo, |s|);
    var b := Min(hi, |s|);
    if a <= b then s[a..b] else []
  }

  /** First index of worker `i`'s slice, clipped to the list. */
  function SliceStart(count: nat, n: nat, i: nat): (lo: nat)
    requires n >= 1
  {
    Min(i * FilesPerWorker(count, n), count)
  }

  /** One past the last index of worker `i`'s slice, clipped to the list. */
  function SliceEnd(count: nat, n: nat, i: nat): (hi: nat)
    requires n >= 1
  {
    Min((i + 1) * FilesPerWorker(count, n), count)
  }

  /**
    The files handed to worker `i`: at most `k` of them, contiguous from
    `i * k`, and none at all when `i * k` is at or past the end.
   */
  function WorkerSlice(files: seq<string>, n: nat, i: nat): (r: seq<string>)
    requires n >= 1
    ensures |r| <= FilesPerWorker(|files|, n)
    ensures i * FilesPerWorker(|files|, n) >= |files| ==> r == []
    ensures r == files[SliceStart(|files|, n, i)..SliceEnd(|files|, n, i)]
  {
    var k := FilesPerWorker(|files|, n);
    var lo := i * k;
    var hi := (i + 1) * k;
    assert hi == lo + k;
    assert SliceStart(|files|, n, i) == Min(lo, |files|) && SliceEnd(|files|, n, i) == Min(hi, |files|);
    PySlice(files, lo, hi)
  }

  /** The slices of workers `0 .. n - 1`, in worker order. */
  function Slices(files: seq<string>, n: nat): (r: seq<seq<string>>)
    requires n >= 1
    ensures |r| == n
    ensures forall i :: 0 <= i < n ==> r[i] == WorkerSlice(files, n, i)
  {
    seq(n, i requires 0 <= i < n => WorkerSlice(files, n, i))
  }

  /** Slice `i` ends where slice `i + 1` starts. */
  lemma AdjacentSlices(count: nat, n: nat, i: nat)
    requires n >= 1
    ensures SliceEnd(count, n, i) == SliceStart(count, n, i + 1)
    ensures SliceStart(count, n, i) <= SliceStart(count, n, i + 1)
  {
    var k := FilesPerWorker(count, n);
    assert (i + 1) * k == i * k + k;
  }

  /** The first `j` slices, laid end to end, are the files before `min(j * k, F)`. */
  lemma {:induction false} SlicesPrefix(files: seq<string>, n: nat, j: nat)
    requires n >= 1 && j <= n
    ensures Flatten(Slices(files, n)[..j]) == files[..SliceStart(|files|, n, j)]
  {
    var ss := Slices(files, n);
    if j == 0 {
      assert ss[..0] == [];
    } else {
      SlicesPrefix(files, n, j - 1);
      assert Flatten(ss[..j]) == Flatten(ss[..j - 1]) + ss[j - 1] by {
        assert ss[..j] == ss[..j - 1] + [ss[j - 1]];
        FlattenSnoc(ss[..j - 1], ss[j - 1]);
      }
      var lo := SliceStart(|files|, n, j - 1);
      var hi := SliceStart(|files|, n, j);
      assert ss[j - 1] == files[lo..hi] && lo <= hi by {
        AdjacentSlices(|files|, n, j - 1);
        assert ss[j - 1] == WorkerSlice(files, n, j - 1);
      }
      assert files[..lo] + files[lo..hi] == files[..hi];
    }
  }

  /**
    Partition completeness: the worker slices concatenate back to exactly
    the file list, in order.
   */
  lemma SlicesConcat(files: seq<string>, n: nat)
    requires n >= 1
    ensures Flatten(Slices(files, n)) == files
  {
    SlicesPrefix(files, n, n);
    assert Slices(files, n)[..n] == Slices(files, n);
  }

  lemma MulMonotone(a: nat, b: nat, k: nat)
    requires a <= b
    ensures a * k <= b * k
  {
  }

  /** `q = idx / k` is the one block index with `q * k <= idx < (q + 1) * k`. */
  lemma DivBlock(idx: nat, k: nat, i: nat)
    requires k > 0
    ensures (idx / k) * k <= idx < (idx / k + 1) * k
    ensures i * k <= idx < (i + 1) * k ==> i == idx / k
  {
    var q := idx / k;
    assert idx == q * k + idx % k;
    assert (q + 1) * k == q * k + k;
    if i * k <= idx < (i + 1) * k {
      if i < q {
        MulMonotone(i + 1, q, k);
      } else if q < i {
        MulMonotone(q + 1, i, k);
      }
    }
  }

  /**
    Exclusivity: file index `idx` lies in the slice of worker `idx / k`,
    that worker exists, and it lies in no other worker's slice.
   */
  lemma SliceOfIndex(count: nat, n: nat, idx: nat, i: nat)
    requires n >= 1 && idx < count && i < n
    ensures idx / FilesPerWorker(count, n) < n
    ensures SliceStart(count, n, i) <= idx < SliceEnd(count, n, i)
            <==> i == idx / FilesPerWorker(count, n)
  {
    var k := FilesPerWorker(count, n);
    assert k > 0;
    var q := idx / k;
    DivBlock(idx, k, i);
    if q >= n {
      MulMonotone(n, q, k);
    }
    var lo := i * k;
    var hi := (i + 1) * k;
    assert SliceStart(count, n, i) == Min(lo, count);
    assert SliceEnd(count, n, i) == Min(hi, count);
    if i == q {
      assert lo <= idx < hi;
    }
  }
}

=== FILE: scenarios.dfy ===
/**
  Worked examples: concrete inputs whose search results follow from the
  general lemmas.
 */
module Scenarios {
  import opened Text
  import opened Matches
  import opened Matcher
  import opened Searcher

  const Line0: string := "The Go team builds tools."
  const Line1: string := "Rust is fast."

  /** Lower-casing the first line only changes its two capitals. */
  lemma LowerLine0()
    ensures Lower(Line0) == "the go team builds tools."
  {
    var low := Lower(Line0);
    var want := "the go team builds tools.";
    forall k | 0 <= k < |want|
      ensures low[k] == want[k]
    {
      assert low[k] == LowerChar(Line0[k]);
    }
  }

  /** Lower-casing the second line only changes its capital. */
  lemma LowerLine1()
    ensures Lower(Line1) == "rust is fast."
  {
    var low := Lower(Line1);
    var want := "rust is fast.";
    forall k | 0 <= k < |want|
      ensures low[k] == want[k]
    {
      assert low[k] == LowerChar(Line1[k]);
    }
  }

  /** Lower-cased, the first line contains `go` (from `Go`) and not `fast`. */
  lemma FirstLineTests()
    ensures Contains(Lower(Line0), "go") && !Contains(Lower(Line0), "fast")
  {
    var low := Lower(Line0);
    Line0Letters();
    ContainsIff(low, "go");
    AbsentFirstChar(low, "fast");
  }

  /** The lowered first line has `go` at position 4 and no `f` anywhere. */
  lemma Line0Letters()
    ensures OccursAt(Lower(Line0), "go", 4)
    ensures forall k | 0 <= k < |Lower(Line0)| :: Lower(Line0)[k] != 'f'
  {
    LowerLine0();
    assert Lower(Line0)[4..6] == "go";
  }

  /** Lower-cased, the second line contains `fast` and not `go`. */
  lemma SecondLineTests()
    ensures Contains(Lower(Line1), "fast") && !Contains(Lower(Line1), "go")
  {
    var low := Lower(Line1);
    LowerLine1();
    assert OccursAt(low, "fast", 8) by {
      assert low[8..12] == "fast";
    }
    ContainsIff(low, "fast");
    AbsentFirstChar(low, "go");
  }

  /** The worker finds `go` on line 0 before `fast` on line 1. */
  lemma ScenarioWorker()
    ensures Worker(map["a.txt" := [Line0, Line1]], ["a.txt"], ["go", "fast"])
            == [Match("go", "a.txt", 0), Match("fast", "a.txt", 1)]
  {
    var ks := ["go", "fast"];
    FirstLineTests();
    SecondLineTests();
    assert ks[..1] == ["go"];
    assert ks[..1][..0] == [];
    assert LineMatches(ks, "a.txt", 0, Lower(Line0)) == [Match("go", "a.txt", 0)];
    assert LineMatches(ks, "a.txt", 1, Lower(Line1)) == [Match("fast", "a.txt", 1)];
    var lines := [Line0, Line1];
    assert lines[..1] == [Line0];
    assert lines[..1][..0] == [];
    assert LinesMatches(lines[..1], ks, "a.txt") == [Match("go", "a.txt", 0)];
    assert LinesMatches(lines, ks, "a.txt") == [Match("go", "a.txt", 0), Match("fast", "a.txt", 1)];
    assert ["a.txt"][1..] == [];
  }

  /**
    One file `a.txt` holding the two lines above, keywords `go` and `fast`:
    every strategy ends with `[("fast", "a.txt", 1), ("go", "a.txt", 0)]`,
    sorted by keyword first although `go` is found first.
   */
  lemma TwoLineScenario(strategy: Strategy, n: int, sched: Schedule)
    requires n >= 1 || strategy == SingleThread
    ensures Search(NewSearcher(strategy, ["a.txt"], ["go", "fast"]), map["a.txt" := [Line0, Line1]], n, sched).Ok?
    ensures Search(NewSearcher(strategy, ["a.txt"], ["go", "fast"]), map["a.txt" := [Line0, Line1]], n, sched)
              .value.results
            == [Match("fast", "a.txt", 1), Match("go", "a.txt", 0)]
  {
    var fs: FileSystem := map["a.txt" := [Line0, Line1]];
    var go := Match("go", "a.txt", 0);
    var fast := Match("fast", "a.txt", 1);
    assert SortMatches(Worker(fs, ["a.txt"], ["go", "fast"])) == [fast, go] by {
      ScenarioWorker();
      assert Le(fast, go);
      SortSwapsPair(go, fast);
    }
    FreshSearchSortsSequentialRun(strategy, fs, ["a.txt"], ["go", "fast"], n, sched);
  }

  /** Two distinct matches arriving in descending order come out of the sort swapped. */
  lemma SortSwapsPair(x: Match, y: Match)
    requires Le(y, x) && x != y
    ensures SortMatches([x, y]) == [y, x]
  {
    var expected := [y, x];
    assert Sorted(expected);
    assert multiset(expected) == multiset([x, y]);
    SortedUnique(SortMatches([x, y]), expected);
  }

  /**
    Case handling: the line `Going` matches the keyword `go`, but the
    keyword `Go` does not match the line `going`, because only the line is
    lower-cased.
   */
  lemma CaseOfLineNotOfKeyword()
    ensures Contains(Lower("Going"), "go")
    ensures !Contains(Lower("going"), "Go")
  {
    assert Lower("Going")[..2] == "go";
    UpperPatternNeverInLowered("going", "Go", 0);
  }
}

=== FILE: searcher.dfy ===
/**
  The four searchers and `search()`. Each strategy collects the raw
  matches its own way (`start_workers`), then `search()` sorts the
  accumulated result list once. The concurrency of the threaded and
  multi-process strategies is replaced by a `Schedule`: the order of the
  dynamic queue's pops, and the order in which matches reach the result
  list.
 */
module Searcher {
  import opened Seqs
  import opened Text
  import opened Matches
  import opened Matcher
  import opened Partition
  import opened FileQueue
  import opened Collect

  datatype Strategy =
    | SingleThread       // one worker over all files, appending to the list
    | MultiThread        // static slices, threads appending under a lock
    | MultiProcess       // static slices, processes putting on a result queue
    | MultiProcessQueue  // processes popping files from a shared queue

  /** The one exception the searchers can raise: `// 0` when no workers are requested for slicing. */
  datatype SearchError = ZeroDivisionError

  datatype Result<T> = Ok(value: T) | Raised(error: SearchError)

  /** A searcher instance: its inputs and its result list, which `search()` never clears. */
  datatype Searcher = Searcher(strategy: Strategy, files: seq<string>, keyWords: seq<string>, results: seq<Match>)

  /**
    The interleavings the model abstracts: `pops` decides which worker
    makes each pop of the file queue, `picks` which worker's next match
    reaches the result list next.
   */
  datatype Schedule = Schedule(pops: seq<nat>, picks: seq<nat>)

  /** A freshly constructed searcher: the result list starts empty. */
  function NewSearcher(strategy: Strategy, files: seq<string>, keyWords: seq<string>): (s: Searcher)
    ensures s.strategy == strategy && s.files == files && s.keyWords == keyWords
    ensures s.results == []
  {
    Searcher(strategy, files, keyWords, [])
  }

  /** The per-worker outputs under static partitioning into `n >= 1` slices. */
  function StaticOutputs(fs: FileSystem, files: seq<string>, keyWords: seq<string>, n: nat): (outs: seq<seq<Match>>)
    requires n >= 1
    ensures |outs| == n
    ensures Flatten(outs) == Worker(fs, files, keyWords)
  {
    SlicesConcat(files, n);
    WorkerFlatten(fs, Slices(files, n), keyWords);
    MapWorker(fs, Slices(files, n), keyWords)
  }

  /** The per-worker outputs of `n >= 1` workers draining the file queue under `pops`. */
  function QueueOutputs(fs: FileSystem, files: seq<string>, keyWords: seq<string>, n: nat, pops: seq<nat>)
    : (outs: seq<seq<Match>>)
    requires n >= 1
    ensures |outs| == n
    ensures multiset(Flatten(outs)) == multiset(Worker(fs, files, keyWords))
  {
    var taken := DrainQueue(files, n, pops);
    WorkerFlatten(fs, taken, keyWords);
    WorkerPermutation(fs, Flatten(taken), files, keyWords);
    MapWorker(fs, taken, keyWords)
  }

  /**
    `start_workers(n_workers)`: the matches one run collects, in arrival
    order. The single-thread searcher ignores `n_workers`. The slicing
    searchers divide by `n_workers`, so 0 raises, and a negative count
    starts no worker at all. The queue searcher with no workers leaves
    every file queued.
   */
  function StartWorkers(s: Searcher, fs: FileSystem, n: int, sched: Schedule): (r: Result<seq<Match>>)
    ensures r.Raised? <==> (s.strategy == MultiThread || s.strategy == MultiProcess) && n == 0
    ensures s.strategy == SingleThread ==> r == Ok(Worker(fs, s.files, s.keyWords))
    ensures r.Ok? && (n >= 1 || s.strategy == SingleThread)
            ==> multiset(r.value) == multiset(Worker(fs, s.files, s.keyWords))
    ensures r.Ok? && n <= 0 && s.strategy != SingleThread ==> r.value == []
  {
    match s.strategy
    case SingleThread =>
      Ok(Worker(fs, s.files, s.keyWords))
    case MultiThread =>
      if n == 0 then Raised(ZeroDivisionError)
      else if n < 0 then Ok([])
      else Ok(Interleave(StaticOutputs(fs, s.files, s.keyWords, n), sched.picks))
    case MultiProcess =>
      if n == 0 then Raised(ZeroDivisionError)
      else if n < 0 then Ok([])
      else Ok(Interleave(StaticOutputs(fs, s.files, s.keyWords, n), sched.picks))
    case MultiProcessQueue =>
      if n <= 0 then Ok([])
      else Ok(Interleave(QueueOutputs(fs, s.files, s.keyWords, n, sched.pops), sched.picks))
  }

  /**
    `search(n_workers)`: collect, then sort the whole result list once.
    The new matches are added to whatever the list already held. An
    exception from `start_workers` propagates and no searcher is returned.
   */
  function Search(s: Searcher, fs: FileSystem, n: int, sched: Schedule): (r: Result<Searcher>)
    ensures r.Raised? <==> StartWorkers(s, fs, n, sched).Raised?
    ensures r.Ok? ==> r.value.strategy == s.strategy && r.value.files == s.files
                      && r.value.keyWords == s.keyWords
    ensures r.Ok? ==> Sorted(r.value.results)
    ensures r.Ok? ==> multiset(r.value.results)
                      == multiset(s.results) + multiset(StartWorkers(s, fs, n, sched).value)
  {
    match StartWorkers(s, fs, n, sched)
    case Raised(e) => Raised(e)
    case Ok(raw) => Ok(s.(results := SortMatches(s.results + raw)))
  }

  /**
    A fresh searcher's `search()` yields the sequential worker's matches in
    sorted order, whatever the schedule; for the single-thread searcher
    whatever `n_workers` is, for the others whenever `n_workers >= 1`.
   */
  lemma FreshSearchSortsSequentialRun(strategy: Strategy, fs: FileSystem, files: seq<string>,
                                      keyWords: seq<string>, n: int, sched: Schedule)
    requires n >= 1 || strategy == SingleThread
    ensures Search(NewSearcher(strategy, files, keyWords), fs, n, sched).Ok?
    ensures Search(NewSearcher(strategy, files, keyWords), fs, n, sched).value.results
            == SortMatches(Worker(fs, files, keyWords))
  {
    var s := NewSearcher(strategy, files, keyWords);
    var r := Search(s, fs, n, sched);
    var w := Worker(fs, files, keyWords);
    assert r.Ok? && multiset(r.value.results) == multiset(w) by {
      assert StartWorkers(s, fs, n, sched).Ok?;
      assert multiset(StartWorkers(s, fs, n, sched).value) == multiset(w);
      assert multiset(s.results) == multiset{};
    }
    SortedUnique(r.value.results, SortMatches(w));
  }

  /**
    Cross-strategy equivalence: with any `n_workers >= 1` and any
    schedules, two fresh searchers of any two strategies end with
    identical result lists.
   */
  lemma StrategiesAgree(a: Strategy, b: Strategy, fs: FileSystem, files: seq<string>, keyWords: seq<string>,
                        n: int, schedA: Schedule, schedB: Schedule)
    requires n >= 1
    ensures Search(NewSearcher(a, files, keyWords), fs, n, schedA).Ok?
    ensures Search(NewSearcher(b, files, keyWords), fs, n, schedB).Ok?
    ensures Search(NewSearcher(a, files, keyWords), fs, n, schedA).value.results
            == Search(NewSearcher(b, files, keyWords), fs, n, schedB).value.results
  {
    FreshSearchSortsSequentialRun(a, fs, files, keyWords, n, schedA);
    FreshSearchSortsSequentialRun(b, fs, files, keyWords, n, schedB);
  }

  /**
    With `n_workers <= 0` the strategies part ways: the slicing searchers
    raise on 0 and collect nothing below 0, the queue searcher collects
    nothing, while the single-thread searcher still finds every match.
   */
  lemma NonPositiveWorkerCount(strategy: Strategy, fs: FileSystem, files: seq<string>,
                               keyWords: seq<string>, n: int, sched: Schedule)
    requires n <= 0 && strategy != SingleThread
    ensures Search(NewSearcher(strategy, files, keyWords), fs, n, sched).Raised?
            <==> n == 0 && strategy != MultiProcessQueue
    ensures Search(NewSearcher(strategy, files, keyWords), fs, n, sched).Ok?
            ==> Search(NewSearcher(strategy, files, keyWords), fs, n, sched).value.results == []
  {
    var r := Search(NewSearcher(strategy, files, keyWords), fs, n, sched);
    if r.Ok? {
      assert multiset(r.value.results) == multiset{};
    }
  }

  /**
    `search()` does not clear the result list: a second call on the same
    searcher holds every match twice, so it differs from the first call's
    list as soon as there is any match at all.
   */
  lemma SecondSearchAccumulates(strategy: Strategy, fs: FileSystem, files: seq<string>,
                                keyWords: seq<string>, n: int, sched1: Schedule, sched2: Schedule)
    requires n >= 1 || strategy == SingleThread
    ensures Search(NewSearcher(strategy, files, keyWords), fs, n, sched1).Ok?
    ensures Search(Search(NewSearcher(strategy, files, keyWords), fs, n, sched1).value, fs, n, sched2).Ok?
    ensures multiset(Search(Search(NewSearcher(strategy, files, keyWords), fs, n, sched1).value, fs, n, sched2)
                       .value.results)
            == multiset(Worker(fs, files, keyWords)) + multiset(Worker(fs, files, keyWords))
    ensures Worker(fs, files, keyWords) != []
            ==> Search(Search(NewSearcher(strategy, files, keyWords), fs, n, sched1).value, fs, n, sched2)
                  .value.results
                != Search(NewSearcher(strategy, files, keyWords), fs, n, sched1).value.results
  {
    var w := Worker(fs, files, keyWords);
    var first := Search(NewSearcher(strategy, files, keyWords), fs, n, sched1);
    FreshSearchSortsSequentialRun(strategy, fs, files, keyWords, n, sched1);
    var second := Search(first.value, fs, n, sched2);
    assert multiset(first.value.results) == multiset(w);
    assert second.Ok? && multiset(second.value.results) == multiset(w) + multiset(w) by {
      assert first.value.strategy == strategy && first.value.files == files && first.value.keyWords == keyWords;
      assert multiset(StartWorkers(first.value, fs, n, sched2).value) == multiset(w);
    }
    assert |second.value.results| == 2 * |w| by {
      assert |multiset(second.value.results)| == |multiset(w)| + |multiset(w)|;
    }
    assert |first.value.results| == |w| by {
      assert |multiset(first.value.results)| == |multiset(w)|;
    }
  }

  /**
    Missing-file tolerance: a file that cannot be opened changes nothing;
    the result is the one for the list without it.
   */
  lemma MissingFileChangesNothing(strategy: Strategy, fs: FileSystem, before: seq<string>, missing: string,
                                  after: seq<string>, keyWords: seq<string>, n: int,
                                  sched1: Schedule, sched2: Schedule)
    requires missing !in fs
    requires n >= 1 || strategy == SingleThread
    ensures Search(NewSearcher(strategy, before + [missing] + after, keyWords), fs, n, sched1).Ok?
    ensures Search(NewSearcher(strategy, before + after, keyWords), fs, n, sched2).Ok?
    ensures Search(NewSearcher(strategy, before + [missing] + after, keyWords), fs, n, sched1).value.results
            == Search(NewSearcher(strategy, before + after, keyWords), fs, n, sched2).value.results
  {
    FreshSearchSortsSequentialRun(strategy, fs, before + [missing] + after, keyWords, n, sched1);
    FreshSearchSortsSequentialRun(strategy, fs, before + after, keyWords, n, sched2);
    WorkerSkipsMissing(fs, before, missing, after, keyWords);
  }

  /**
    End to end: after one `search()` a fresh searcher's list holds
    `(w, f, i)` exactly when `f` is one of its files, `f` exists, line `i`
    of `f` exists, `w` is one of its keywords, and `w` is a substring of
    line `i` lower-cased.
   */
  lemma SearchResultsIff(strategy: Strategy, fs: FileSystem, files: seq<string>, keyWords: seq<string>,
                         n: int, sched: Schedule, m: Match)
    requires n >= 1 || strategy == SingleThread
    ensures Search(NewSearcher(strategy, files, keyWords), fs, n, sched).Ok?
    ensures m in Search(NewSearcher(strategy, files, keyWords), fs, n, sched).value.results
            <==> m.file in files && m.file in fs && m.line < |fs[m.file]| && m.keyword in keyWords
                 && Contains(Lower(fs[m.file][m.line]), m.keyword)
  {
    var w := Worker(fs, files, keyWords);
    FreshSearchSortsSequentialRun(strategy, fs, files, keyWords, n, sched);
    var results := Search(NewSearcher(strategy, files, keyWords), fs, n, sched).value.results;
    assert m in results <==> m in multiset(results);
    assert m in w <==> m in multiset(w);
    WorkerIff(fs, files, keyWords, m);
    SearchWordsIff(fs, m.file, keyWords, m);
  }

  /** An empty keyword list yields an empty result list, for every strategy and worker count. */
  lemma EmptyKeywordsNoResults(strategy: Strategy, fs: FileSystem, files: seq<string>, n: int, sched: Schedule)
    ensures Search(NewSearcher(strategy, files, []), fs, n, sched).Ok?
            ==> Search(NewSearcher(strategy, files, []), fs, n, sched).value.results == []
  {
    var r := Search(NewSearcher(strategy, files, []), fs, n, sched);
    if r.Ok? {
      assert Worker(fs, files, []) == [];
      assert multiset(r.value.results) == multiset{};
    }
  }

  /**
    Keywords are compared as given: a keyword holding an ASCII capital (A-Z)
    never appears in the results, since only the lines are lower-cased.
   */
  lemma UppercaseKeywordAbsent(strategy: Strategy, fs: FileSystem, files: seq<string>, keyWords: seq<string>,
                               n: int, sched: Schedule, w: string, k: nat)
    requires k < |w| && IsUpper(w[k])
    ensures Search(NewSearcher(strategy, files, keyWords), fs, n, sched).Ok?
            ==> forall m | m in Search(NewSearcher(strategy, files, keyWords), fs, n, sched).value.results
                  :: m.keyword != w
  {
    var r := Search(NewSearcher(strategy, files, keyWords), fs, n, sched);
    if r.Ok? {
      var raw := StartWorkers(NewSearcher(strategy, files, keyWords), fs, n, sched).value;
      assert multiset(r.value.results) == multiset(raw);
      forall m | m in r.value.results
        ensures m.keyword != w
      {
        assert m in multiset(raw);
        assert m in raw;
        if m.keyword == w {
          assert n >= 1 || strategy == SingleThread;
          assert m in multiset(Worker(fs, files, keyWords));
          WorkerIff(fs, files, keyWords, m);
          UppercaseKeywordNeverMatches(fs, m.file, keyWords, w, k);
        }
      }
    }
  }
}

=== FILE: seqs.dfy ===
/**
  Sequence helpers shared by the searcher model: flattening a sequence of
  per-worker lists into one list, and how flattening interacts with
  appending and with replacing one worker's list.
 */
module Seqs {

  /** The concatenation of all lists, in order. */
  function Flatten<T>(ss: seq<seq<T>>): (r: seq<T>)
  {
    if |ss| == 0 then [] else ss[0] + Flatten(ss[1..])
  }

  /** The smaller of two bounds; clips a slice bound to a sequence's length. */
  function Min(a: int, b: int): (m: int)
  {
    if a <= b then a else b
  }

  /** A list of empty lists flattens to the empty list. */
  lemma {:induction false} EmptyListsFlatten<T>(ss: seq<seq<T>>)
    requires forall i :: 0 <= i < |ss| ==> ss[i] == []
    ensures Flatten(ss) == []
  {
    if |ss| > 0 {
      EmptyListsFlatten(ss[1..]);
    }
  }

  /** Flattening distributes over concatenation of the outer sequence. */
  lemma {:induction false} FlattenAppend<T>(a: seq<seq<T>>, b: seq<seq<T>>)
    ensures Flatten(a + b) == Flatten(a) + Flatten(b)
  {
    if |a| == 0 {
      assert a + b == b;
    } else {
      assert (a + b)[1..] == a[1..] + b;
      FlattenAppend(a[1..], b);
    }
  }

  /** Appending one more list at the end appends its elements at the end. */
  lemma FlattenSnoc<T>(ss: seq<seq<T>>, x: seq<T>)
    ensures Flatten(ss + [x]) == Flatten(ss) + x
  {
    FlattenAppend(ss, [x]);
    assert [x][1..] == [];
  }

  /**
    Replacing the list at position `p` by `t` changes the bag of all
    elements by exactly the difference between the old and the new list.
   */
  lemma {:induction false} FlattenUpdateMultiset<T>(ss: seq<seq<T>>, p: nat, t: seq<T>)
    requires p < |ss|
    ensures multiset(Flatten(ss[p := t])) + multiset(ss[p]) == multiset(Flatten(ss)) + multiset(t)
  {
    if p == 0 {
      assert ss[p := t][1..] == ss[1..];
    } else {
      var u := ss[p := t];
      var v := ss[1..][p - 1 := t];
      assert u[0] == ss[0];
      assert u[1..] == v;
      assert ss[p] == ss[1..][p - 1];
      FlattenUpdateMultiset(ss[1..], p - 1, t);
      assert multiset(Flatten(v)) + multiset(ss[1..][p - 1]) == multiset(Flatten(ss[1..])) + multiset(t);
      calc {
        multiset(Flatten(u)) + multiset(ss[p]);
        multiset(ss[0]) + multiset(Flatten(v)) + multiset(ss[1..][p - 1]);
        multiset(ss[0]) + (multiset(Flatten(v)) + multiset(ss[1..][p - 1]));
        multiset(ss[0]) + (multiset(Flatten(ss[1..])) + multiset(t));
        multiset(ss[0]) + multiset(Flatten(ss[1..])) + multiset(t);
        multiset(Flatten(ss)) + multiset(t);
      }
    }
  }

  /** Cancellation: adding the same bag to both sides preserves and reflects equality. */
  lemma MultisetCancel<T>(x: multiset<T>, y: multiset<T>, t: multiset<T>)
    requires x + t == y + t
    ensures x == y
  {
    assert x == x + t - t;
    assert y == y + t - t;
  }

  /** Removing the head of list `p` removes exactly that element from the bag of all elements. */
  lemma FlattenDropHead<T>(ss: seq<seq<T>>, p: nat)
    requires p < |ss| && |ss[p]| > 0
    ensures multiset(Flatten(ss[p := ss[p][1..]])) + multiset{ss[p][0]} == multiset(Flatten(ss))
  {
    var tail := ss[p][1..];
    var a := multiset(Flatten(ss[p := tail]));
    var b := multiset(Flatten(ss));
    var h := multiset{ss[p][0]};
    var t := multiset(tail);
    assert multiset(ss[p]) == h + t by {
      assert ss[p] == [ss[p][0]] + tail;
    }
    assert a + (h + t) == b + t by {
      FlattenUpdateMultiset(ss, p, tail);
    }
    assert (a + h) + t == b + t;
    MultisetCancel(a + h, b, t);
  }

  /** Appending `x` to list `p` adds exactly `x` to the bag of all elements. */
  lemma FlattenAppendTo<T>(ss: seq<seq<T>>, p: nat, x: T)
    requires p < |ss|
    ensures multiset(Flatten(ss[p := ss[p] + [x]])) == multiset(Flatten(ss)) + multiset{x}
  {
    var a := multiset(Flatten(ss[p := ss[p] + [x]]));
    var b := multiset(Flatten(ss));
    var t := multiset(ss[p]);
    assert a + t == b + (t + multiset{x}) by {
      FlattenUpdateMultiset(ss, p, ss[p] + [x]);
      assert multiset(ss[p] + [x]) == t + multiset{x};
    }
    assert a + t == (b + multiset{x}) + t;
    MultisetCancel(a, b + multiset{x}, t);
  }
}

=== FILE: text.dfy ===
/**
  The string operations the matcher relies on: lower-casing a line, the
  substring test behind Python's `word in line`, and the code-point
  lexicographic order Python uses to compare strings.
 */
module Text {

  predicate IsUpper(c: char)
  {
    'A' <= c <= 'Z'
  }

  /** Lower-cases one character; only the ASCII letters A-Z are mapped. */
  function LowerChar(c: char): (r: char)
    ensures !IsUpper(r)
    ensures IsUpper(c) ==> r as int == c as int + 32
    ensures !IsUpper(c) ==> r == c
  {
    if IsUpper(c) then (c as int + 32) as char else c
  }

  /** `str.lower()` restricted to ASCII. */
  function Lower(s: string): (r: string)
    ensures |r| == |s|
    ensures forall i :: 0 <= i < |s| ==> r[i] == LowerChar(s[i])
  {
    seq(|s|, i requires 0 <= i < |s| => LowerChar(s[i]))
  }

  /** A lower-cased string contains no ASCII capital, and lowering it again changes nothing. */
  lemma LowerIsLower(s: string)
    ensures forall i :: 0 <= i < |s| ==> !IsUpper(Lower(s)[i])
    ensures Lower(Lower(s)) == Lower(s)
  {
  }

  /** `pat` occurs in `text` starting at position `i`. */
  predicate OccursAt(text: string, pat: string, i: nat)
  {
    i + |pat| <= |text| && text[i..i + |pat|] == pat
  }

  /**
    Python's `pat in text`: true when `pat` occurs anywhere in `text`
    (the empty pattern occurs in every text).
   */
  predicate Contains(text: string, pat: string)
    decreases |text|
  {
    if pat <= text then true
    else if |text| == 0 then false
    else Contains(text[1..], pat)
  }

  /** Dropping the first character shifts every occurrence one position to the left. */
  lemma OccursShift(text: string, pat: string, i: nat)
    requires |text| > 0
    ensures OccursAt(text[1..], pat, i) <==> OccursAt(text, pat, i + 1)
  {
    if i + 1 + |pat| <= |text| {
      assert text[1..][i..i + |pat|] == text[i + 1..i + 1 + |pat|];
    }
  }

  /** The scanning definition agrees with the existence of an occurrence. */
  lemma {:induction false} ContainsIff(text: string, pat: string)
    ensures Contains(text, pat) <==> exists i: nat :: OccursAt(text, pat, i)
    decreases |text|
  {
    if pat <= text {
      assert OccursAt(text, pat, 0);
    } else if |text| > 0 {
      ContainsIff(text[1..], pat);
      forall i: nat
        ensures OccursAt(text[1..], pat, i) <==> OccursAt(text, pat, i + 1)
      {
        OccursShift(text, pat, i);
      }
      if exists i: nat :: OccursAt(text, pat, i) {
        var i: nat :| OccursAt(text, pat, i);
        assert i != 0;
        assert OccursAt(text[1..], pat, i - 1);
      }
    }
  }

  /** A pattern whose first character appears nowhere in the text does not occur in it. */
  lemma AbsentFirstChar(text: string, pat: string)
    requires |pat| > 0
    requires forall k :: 0 <= k < |text| ==> text[k] != pat[0]
    ensures !Contains(text, pat)
  {
    forall i: nat
      ensures !OccursAt(text, pat, i)
    {
      if i + |pat| <= |text| {
        assert text[i..i + |pat|][0] == text[i];
      }
    }
    ContainsIff(text, pat);
  }

  /**
    A pattern holding an ASCII capital (A-Z) never occurs in a
    lower-cased text: only the line is lowered, never the keyword.
   */
  lemma UpperPatternNeverInLowered(line: string, pat: string, k: nat)
    requires k < |pat| && IsUpper(pat[k])
    ensures !Contains(Lower(line), pat)
  {
    var low := Lower(line);
    forall i: nat
      ensures !OccursAt(low, pat, i)
    {
      if i + |pat| <= |low| {
        assert low[i..i + |pat|][k] == low[i + k];
        assert !IsUpper(low[i + k]);
      }
    }
    ContainsIff(low, pat);
  }

  /**
    Python's `a <= b` on strings: lexicographic by code point, a proper
    prefix coming first.
   */
  predicate StrLe(a: string, b: string)
  {
    if |a| == 0 then true
    else if |b| == 0 then false
    else if a[0] != b[0] then a[0] < b[0]
    else StrLe(a[1..], b[1..])
  }

  lemma {:induction false} StrLeReflexive(a: string)
    ensures StrLe(a, a)
  {
    if |a| > 0 {
      StrLeReflexive(a[1..]);
    }
  }

  lemma {:induction false} StrLeTotal(a: string, b: string)
    ensures StrLe(a, b) || StrLe(b, a)
  {
    if |a| > 0 && |b| > 0 && a[0] == b[0] {
      StrLeTotal(a[1..], b[1..]);
    }
  }

  lemma {:induction false} StrLeAntisymmetric(a: string, b: string)
    requires StrLe(a, b) && StrLe(b, a)
    ensures a == b
  {
    if |a| > 0 && |b| > 0 {
      StrLeAntisymmetric(a[1..], b[1..]);
      assert a == [a[0]] + a[1..];
      assert b == [b[0]] + b[1..];
    }
  }

  lemma {:induction false} StrLeTransitive(a: string, b: string, c: string)
    requires StrLe(a, b) && StrLe(b, c)
    ensures StrLe(a, c)
  {
    if |a| > 0 && |b| > 0 && |c| > 0 && a[0] == b[0] && b[0] == c[0] {
      StrLeTransitive(a[1..], b[1..], c[1..]);
    }
  }
}
